=== FILE: README.md ===
# AgriChain batch handling, modelled in Dafny

AgriChain is a demonstration farm-to-fork traceability web application. Each
dashboard keeps its own in-memory list of produce batches:

- farmers register batches;
- distributors confirm pickups and transfer batches to retailers;
- retailers mark batches as received;
- consumers open a trace page, by scanning a QR code or typing a batch id.

This project models the logic inside the page event handlers as pure Dafny
functions over immutable data:

- the batch list and its status label;
- the list operations the three dashboards perform, and the status buckets and
  stat cards they derive from the list;
- the login role dispatch;
- the trace path, the QR payload and the download file name;
- the scan and manual-entry handlers;
- the trace page's mock product and timeline.

Modules: one per page, plus the shared pieces (`Options`, `Status`, `BatchList`, `Decimal`, `Routes`):

| module | file | models |
|---|---|---|
| `Status` | status.dfy | the status label, as a datatype with an `Other` fallback, and its conversion to and from strings |
| `BatchList` | batch_list.dfy | the batch record, and the status-update, filter and count steps the dashboards share |
| `Options` | options.dfy | the optional value used for fields and parameters that may be missing |
| `Decimal` | decimal.dfy | `String(n)` and `padStart`, used by the batch-id template |
| `Qr` | qr.dfy | the trace path, the QR payload and the download file name |
| `Farmer` | farmer.dfy | the farmer dashboard |
| `Distributor` | distributor.dfy | the distributor dashboard |
| `Retailer` | retailer.dfy | the retailer dashboard |
| `Routes` | routes.dfy | the declared routes and the `/trace/:batchId` parameter |
| `Login` | login.dfy | the login page |
| `Scan` | scan.dfy | the scan page, including JavaScript `trim` |
| `Trace` | trace.dfy | the trace page |

Browser effects become values:

- a navigation is an outcome value carrying the path;
- an alert or a toast is an outcome value carrying its text;
- `window.location.origin` is a parameter;
- the photo's object URL is an optional form field.

Two behaviours of the code worth knowing:

- `confirmPickup` does not check the prior status: a transferred batch goes
  back to "In Transit" (`Distributor.ConfirmPickupIgnoresPriorStatus`).
- Once the trace page's effect has run, no batch id reaches "Product Not
  Found" (`Trace.RunEffect`).

## Model

| member | source | states |
|---|---|---|
| Status.Parse | src/pages/FarmerDashboard.tsx:19 | reading a status string never yields an `Other` that hides one of the four known labels, and yields `Other` exactly for unknown strings |
| Status.Label | src/pages/FarmerDashboard.tsx:19 | the stored string of `Other` is its own text; a well-formed status prints as a known label exactly when it is not `Other` |
| Status.LabelParse | src/pages/FarmerDashboard.tsx:19 | any status string survives a parse and print round trip unchanged |
| Status.ParseLabel | src/pages/FarmerDashboard.tsx:19 | every well-formed status survives a print and parse round trip |
| Status.LabelInjective | src/pages/DistributorDashboard.tsx:98-99 | two well-formed statuses are equal exactly when their label strings are, so filtering on the datatype selects what the page's `===` selects |
| Status.KnownLabelsDistinct | src/pages/FarmerDashboard.tsx:70 | the four labels the handlers write (here, and at DistributorDashboard.tsx lines 62 and 71 and RetailerDashboard.tsx line 52) are pairwise different strings |
| BatchList.SetStatus | src/pages/DistributorDashboard.tsx:59-65 | the shared `map` step: the list keeps its length and order, every entry with the id gets the new status, every other field and entry is untouched, and well-formedness is kept |
| BatchList.UpdatedWhereUnique | src/pages/DistributorDashboard.tsx:59-65 | the "only the status of matching entries changes" description determines the resulting list completely |
| BatchList.SetStatusAbsent | src/pages/RetailerDashboard.tsx:49-55 | an update for an id that no entry carries returns the list unchanged |
| BatchList.SetStatusIdempotent | src/pages/RetailerDashboard.tsx:49-55 | applying the same status update twice equals applying it once |
| BatchList.Bucket | src/pages/DistributorDashboard.tsx:98-99 | a status filter is no longer than the list, and holds exactly the entries of the list with that status |
| BatchList.CountIsBucketSize | src/pages/DistributorDashboard.tsx:134 | a stat-card count equals the length of the matching filtered list |
| BatchList.BucketIsSublist | src/pages/DistributorDashboard.tsx:98-99 | a status filter keeps its entries in their original order (order-preserving sublist) |
| BatchList.BucketsDisjoint | src/pages/RetailerDashboard.tsx:68-69 | filters for two different statuses have no entry in common |
| BatchList.BucketsBounded | src/pages/FarmerDashboard.tsx:205-226 | two different status counts add up to at most the number of batches |
| BatchList.BucketAppend | src/pages/FarmerDashboard.tsx:73 | appending a batch adds it to the filter of its own status and to no other |
| BatchList.CountAppend | src/pages/FarmerDashboard.tsx:73 | appending a batch raises its own status count by one and leaves the other counts alone |
| BatchList.SetStatusCounts | src/pages/DistributorDashboard.tsx:59-65 | moving all entries with an id from status a to b lowers the a count and raises the b count by the number of those entries, and keeps every other count |
| BatchList.LabelFilter | src/pages/FarmerDashboard.tsx:215 | the page's string filter keeps exactly the entries of the list whose label is the given text, and is no longer than the list |
| BatchList.BucketIsLabelFilter | src/pages/FarmerDashboard.tsx:215 | on lists of well-formed statuses the datatype filter and the string filter return the same list |
| Decimal.ToDecimal | src/pages/FarmerDashboard.tsx:64 | `String(n)` for n below 10^21, which covers every array length + 1: a non-empty digit string that denotes n, with no leading zero, and exactly "0" for 0 |
| Decimal.PadStart | src/pages/FarmerDashboard.tsx:64 | `padStart` reaches the target width or keeps the string, ends with the original string, and fills the front with the pad character |
| Decimal.PadStartValue | src/pages/FarmerDashboard.tsx:64 | zero padding a decimal rendering keeps the number it denotes |
| Qr.TracePath | src/pages/ScanProduct.tsx:16 | a trace path is "/trace/" followed by the id, with nothing in between |
| Qr.Payload | src/components/ui/QrGenerator/QrGenerator.tsx:12 | the QR payload is the origin followed by the trace path of the id |
| Qr.StripPayloadPrefix | src/components/ui/QrGenerator/QrGenerator.tsx:12 | the id is recovered exactly when the text starts with origin + "/trace/", and the text is that prefix plus the id |
| Qr.PayloadRoundTrip | src/components/ui/QrGenerator/QrGenerator.tsx:12 | stripping origin + "/trace/" from a payload gives back the batch id |
| Qr.PayloadInjective | src/components/ui/QrGenerator/QrGenerator.tsx:12 | for a fixed origin, two payloads are equal exactly when the ids are |
| Qr.Filename | src/components/ui/QrGenerator/QrGenerator.tsx:28 | the file name is the product name, a dash, the id, then "-QR.png" at the end |
| Qr.FilenameInjectiveInId | src/components/ui/QrGenerator/QrGenerator.tsx:28 | for one product name, two file names are equal exactly when the batch ids are |
| Qr.FilenameAmbiguous | src/components/ui/QrGenerator/QrGenerator.tsx:28 | unlike the payload, the file name does not determine the pair: ("a-b","c") and ("a","b-c") collide |
| Farmer.NewBatchId | src/pages/FarmerDashboard.tsx:64 | the new id is "BATCH" then the decimal digits of length + 1, zero-padded to exactly three digits when shorter and unpadded otherwise |
| Farmer.NewBatchIdInjective | src/pages/FarmerDashboard.tsx:64 | different list lengths give different ids |
| Farmer.NewBatchIdExamples | src/pages/FarmerDashboard.tsx:64 | length 0 gives "BATCH001", 2 gives "BATCH003", 999 gives "BATCH1000" |
| Farmer.NewBatch | src/pages/FarmerDashboard.tsx:63-72 | the new batch carries the generated id and the form's fields, has status "Awaiting Pickup", and has no distributor, retailer, pickup or transfer set |
| Farmer.Register | src/pages/FarmerDashboard.tsx:57-75 | registering appends exactly one batch after the unchanged existing list and closes the dialog |
| Farmer.SeedSequential | src/pages/FarmerDashboard.tsx:30-53 | the starting list's ids are BATCH001, BATCH002 in order |
| Farmer.RegisterKeepsSequential | src/pages/FarmerDashboard.tsx:64-73 | registration keeps the ids BATCH001..BATCHn in list order |
| Farmer.NewIdFresh | src/pages/FarmerDashboard.tsx:64 | while ids are sequential, the generated id is carried by no existing batch |
| Farmer.RegisterCounts | src/pages/FarmerDashboard.tsx:70-73 | registration raises the "Awaiting Pickup" count by one and leaves every other status count, "In Transit" included, unchanged |
| Farmer.StatusColour | src/pages/FarmerDashboard.tsx:77-88 | yellow, blue and green exactly for the awaiting, in-transit and available labels; every other string, "Transferred to Retailer" included, is gray |
| Farmer.Cards | src/pages/FarmerDashboard.tsx:205-226 | the cards show the list length and the two bucket sizes, and the two buckets never exceed the total |
| Farmer.SeedWellFormed | src/pages/FarmerDashboard.tsx:30-53 | the starting list holds only the handlers' own status labels |
| Farmer.RegisterKeepsWellFormed | src/pages/FarmerDashboard.tsx:63-73 | registration keeps every status one of the handlers' own labels or a genuinely unknown string |
| Farmer.CardsByLabel | src/pages/FarmerDashboard.tsx:215-226 | on such lists the awaiting and in-transit cards equal the lengths of the page's `b.status === ...` string filters |
| Farmer.QrValue | src/pages/FarmerDashboard.tsx:274 | the dashboard's QR text decodes back to the batch's id |
| Farmer.QrValueMatchesGenerator | src/pages/FarmerDashboard.tsx:274 | the dashboard's payload template is the QR generator component's |
| Farmer.DownloadName | src/pages/FarmerDashboard.tsx:295 | the dashboard's download name is the QR generator component's file name |
| Distributor.ConfirmPickup | src/pages/DistributorDashboard.tsx:59-65 | matching entries become "In Transit" with no other field or entry changed, and the dialog state is untouched |
| Distributor.OpenTransferDialog | src/pages/DistributorDashboard.tsx:80-83 | remembers the batch id and opens the dialog; the list and the selected retailer are untouched |
| Distributor.TransferToRetailer | src/pages/DistributorDashboard.tsx:67-78 | with no retailer picked or no id remembered nothing changes; otherwise matching entries become "Transferred to Retailer", the dialog closes and both selections reset |
| Distributor.TransferRecordsNoRetailer | src/pages/DistributorDashboard.tsx:69-73 | a transfer changes no batch's details: the chosen retailer is stored nowhere |
| Distributor.OfferedRetailerTransfers | src/pages/DistributorDashboard.tsx:52-78 | every retailer the dialog offers passes the transfer guard, so with a batch remembered the transfer happens and the dialog resets |
| Distributor.OpenThenTransfer | src/pages/DistributorDashboard.tsx:67-83 | opening the dialog for an id and confirming with a retailer picked transfers exactly that id and resets the dialog |
| Distributor.ConfirmPickupIdempotent | src/pages/DistributorDashboard.tsx:59-65 | confirming a pickup twice equals confirming it once |
| Distributor.ConfirmPickupUnknownId | src/pages/DistributorDashboard.tsx:59-65 | confirming a pickup for an unknown id changes nothing |
| Distributor.ConfirmPickupIgnoresPriorStatus | src/pages/DistributorDashboard.tsx:59-65 | no guard on the prior status: a transferred batch is put back "In Transit" |
| Distributor.AwaitingPickupList | src/pages/DistributorDashboard.tsx:98 | the awaiting list is an order-preserving sublist holding exactly the awaiting batches, one entry per awaiting batch |
| Distributor.InTransitList | src/pages/DistributorDashboard.tsx:99 | the in-transit list is an order-preserving sublist holding exactly the in-transit batches, one entry per in-transit batch |
| Distributor.BucketsSeparate | src/pages/DistributorDashboard.tsx:98-99 | the two lists are disjoint, and a "Transferred to Retailer" batch is in neither |
| Distributor.Cards | src/pages/DistributorDashboard.tsx:134-152 | the cards show the two list sizes and the total, and the two sizes add to at most the total |
| Distributor.ConfirmPickupMovesOne | src/pages/DistributorDashboard.tsx:59-65 | for an awaiting batch with a unique id, the awaiting card drops by one, the in-transit card rises by one, and the total stays the same |
| Distributor.TransferMovesOne | src/pages/DistributorDashboard.tsx:67-78 | transferring an in-transit batch with a unique id lowers the in-transit card by one and leaves the awaiting card alone |
| Distributor.StatusColour | src/pages/DistributorDashboard.tsx:85-96 | yellow, blue and green exactly for the awaiting, in-transit and transferred labels; everything else is gray |
| Distributor.SeedWellFormed | src/pages/DistributorDashboard.tsx:21-46 | the starting list holds only the handlers' own status labels |
| Distributor.ActionsKeepWellFormed | src/pages/DistributorDashboard.tsx:59-78 | confirming a pickup and transferring keep every status one of the handlers' own labels or a genuinely unknown string |
| Distributor.CardsByLabel | src/pages/DistributorDashboard.tsx:98-99 | on such lists the awaiting and in-transit cards equal the lengths of the page's `b.status === ...` string filters |
| Distributor.SeedCards | src/pages/DistributorDashboard.tsx:21-50 | the page's initial state shows 2 awaiting, 1 in transit, 3 in total |
| Retailer.MarkAsReceived | src/pages/RetailerDashboard.tsx:49-55 | matching entries become "Available for Sale"; every other entry and field is untouched and the length is kept |
| Retailer.MarkAsReceivedIdempotent | src/pages/RetailerDashboard.tsx:49-55 | marking a batch received twice equals marking it once |
| Retailer.MarkAsReceivedUnknownId | src/pages/RetailerDashboard.tsx:49-55 | marking an unknown id changes nothing |
| Retailer.PendingReceival | src/pages/RetailerDashboard.tsx:68 | the pending list is an order-preserving sublist holding exactly the transferred batches, one entry per transferred batch |
| Retailer.AvailableForSaleList | src/pages/RetailerDashboard.tsx:69 | the available list is an order-preserving sublist holding exactly the available batches, one entry per available batch |
| Retailer.BucketsSeparate | src/pages/RetailerDashboard.tsx:68-69 | no batch is both pending and available |
| Retailer.Cards | src/pages/RetailerDashboard.tsx:104-122 | the cards show the two list sizes, "QR Codes Generated" always equals the available count, and pending plus available is at most the total |
| Retailer.MarkAsReceivedMovesOne | src/pages/RetailerDashboard.tsx:49-69 | receiving a pending batch with a unique id: pending drops by one, while available and the QR figure each rise by one |
| Retailer.StatusColour | src/pages/RetailerDashboard.tsx:57-66 | blue and green exactly for the transferred and available labels; every other label, awaiting and in transit included, is gray and never yellow |
| Retailer.ViewTraceLink | src/pages/RetailerDashboard.tsx:210 | the "View Trace" link is the path that a batch's QR payload carries after the origin |
| Retailer.SeedWellFormed | src/pages/RetailerDashboard.tsx:19-47 | the starting list holds only the handlers' own status labels |
| Retailer.MarkAsReceivedKeepsWellFormed | src/pages/RetailerDashboard.tsx:49-55 | marking a batch received keeps every status one of the handlers' own labels or a genuinely unknown string |
| Retailer.CardsByLabel | src/pages/RetailerDashboard.tsx:68-69 | on such lists the pending and available cards equal the lengths of the page's `b.status === ...` string filters |
| Retailer.SeedCards | src/pages/RetailerDashboard.tsx:19-47 | the starting list shows 2 pending, 1 available, 1 QR code |
| Routes.TraceRouteParam | src/App.tsx:31 | the trace route yields a non-empty id without '/' only from a path that is exactly that id's trace path |
| Routes.TraceRouteRoundTrip | src/App.tsx:31 | the trace path of a one-segment id matches the trace route, and the route gives the id back |
| Login.HandleLogin | src/pages/Login.tsx:15-32 | "farmer", "distributor" and "retailer" go to their dashboards, and each destination is a declared route; any other role only raises the alert |
| Login.InitialRoleAlerts | src/pages/Login.tsx:12 | submitting with the initial empty role raises the alert |
| Login.LoginIgnoresCredentials | src/pages/Login.tsx:15-32 | the outcome does not depend on the email or the password |
| Login.DestinationsDistinct | src/pages/Login.tsx:19-27 | two roles that navigate share a destination only if they are the same role |
| Scan.Trim | src/pages/ScanProduct.tsx:30 | `trim` returns a slice of the input that is empty or starts and ends with a non-whitespace character |
| Scan.TrimEmptyIff | src/pages/ScanProduct.tsx:30 | trimming leaves nothing exactly when every character is JavaScript whitespace |
| Scan.HandleScan | src/pages/ScanProduct.tsx:13-18 | navigates to "/trace/" + the raw decoded text exactly when the text is non-empty, and otherwise does nothing |
| Scan.HandleError | src/pages/ScanProduct.tsx:20-26 | a scanner failure becomes an error notification carrying the error's message |
| Scan.HandleManualSubmit | src/pages/ScanProduct.tsx:28-39 | navigates exactly when the input has a non-whitespace character, using the untrimmed input; otherwise shows the "Please enter a valid Batch ID" error |
| Scan.ManualSubmitKeepsSpaces | src/pages/ScanProduct.tsx:31 | " B1 " navigates to "/trace/ B1 " |
| Scan.ScanOfGeneratedCodeAsWritten | src/pages/ScanProduct.tsx:14-16 | scanning a generated code navigates to "/trace/" + the whole URL, which is not the trace path of the id and which the trace route does not match |
| Scan.ScanOfGeneratedCodeExample | src/pages/ScanProduct.tsx:14-16 | the BATCH001 code from http://localhost:8080 leads to "/trace/http://localhost:8080/trace/BATCH001" |
| Scan.HandleScanPayload | src/pages/ScanProduct.tsx:13-18 | the corrected handler passes a payload of this origin on as its bare id, and any other text unchanged |
| Scan.ScanOfGeneratedCodeFixed | src/pages/ScanProduct.tsx:13-18 | with the correction, scanning a generated code leads to the id's trace path, which the trace route matches |
| Trace.ProductId | src/pages/Traceability.tsx:40 | the shown id is the route's batch id when non-empty, and otherwise "BATCH006" |
| Trace.MockProduct | src/pages/Traceability.tsx:39-48 | the mock product carries the chosen id and has no photo |
| Trace.MockProductSameFixture | src/pages/Traceability.tsx:41-47 | products for any two batch ids agree on every field but the id |
| Trace.MockEvents | src/pages/Traceability.tsx:50-81 | exactly three events with ids "1", "2", "3", all completed; descriptions name the product, farm, distributor and retailer; events 1 and 2 are at the farm location |
| Trace.RunEffect | src/pages/Traceability.tsx:36-96 | after the effect, every batch id shows the mock product for that id and its mock timeline (three completed events), never the initial "Product Not Found" view |
| Trace.CountConnectors | src/pages/Traceability.tsx:164-205 | a timeline of n events draws n−1 connectors and n−1 arrows (none when empty) |
| Trace.OnlyLastUnconnected | src/pages/Traceability.tsx:164 | of n events, only the last lacks a connector |

## Left out

- Decimal.ToDecimal: models `String(n)` on unbounded naturals. From 10^21 JavaScript switches to exponent notation, and above 2^53 the number is an inexact double. The only call site passes an array length + 1, which stays far below both.
- Page rendering: JSX, layout, icons and Tailwind classes. Badge colours are opaque tokens (`Colour`).
- QR encoding and the PNG download. The encoding is done by a library. The download goes SVG to canvas to PNG through the browser, asynchronously. Only the payload and file-name strings are modelled.
- The camera scanner component (src/components/ui/QrScanner/QrScanner.tsx). It wraps a library's asynchronous camera lifecycle. The model starts from the decoded text it passes to the scan handler.
- Photo uploads. The object URL is a browser call, so it enters as an optional form field.
- React state timing. Each handler is a pure function from state and input to state; stale closures and effect scheduling are not modelled.
- Toasts and alerts are outcome values. Nothing is displayed.
- Date parsing and locale formatting of harvest, pickup and transfer dates. These depend on the clock and the locale.
- Plain state setters: the retailer `Select`, the dialog's Cancel button, and the dialog's `onOpenChange`. Each sets one field. The model takes the selected retailer and the dialog flag as state.
- The landing page, the register redirect and the router wiring. There is no logic in them; `DeclaredPaths` lists the routes.
- Routes.TraceRouteParam: models only the one-segment rule of `/trace/:batchId`. Trailing slashes, percent-decoding and the matcher's ranking are not modelled.
- Trace.MockEvents: the contract does not fix the titles, dates and times, or event 3's location ("Downtown District"). These are constant text.
- Scan.Trim: the contract states the result's shape, not that the stripped runs are maximal. `Scan.TrimEmptyIff` states the part the handler depends on.

## Findings

| source | as written | input that shows it | evidently intended | confidence | as-written member | corrected member |
|---|---|---|---|---|---|---|
| src/pages/ScanProduct.tsx:13-18 | `handleScan` navigates to "/trace/" + the decoded text. Codes made by the application encode a full URL, origin + "/trace/" + id (src/components/ui/QrGenerator/QrGenerator.tsx:12). | Scanning the BATCH001 code made at http://localhost:8080 leads to "/trace/http://localhost:8080/trace/BATCH001". That path has several segments, so `/trace/:batchId` does not match it. | Reduce a payload of the page's origin to its batch id, and navigate to "/trace/BATCH001" | high; not executed | Scan.ScanOfGeneratedCodeAsWritten | Scan.ScanOfGeneratedCodeFixed |

=== FILE: batch_list.dfy ===
/**
 The in-memory batch list every dashboard keeps, and the three list operations
 the dashboards share: rewriting the status of the entries with a given id
 (`confirmPickup`, `transferToRetailer`, `markAsReceived`), keeping the entries
 with a given status (the dashboard buckets), and counting them (the stat cards).
 */
module BatchList {
  import opened Options
  import opened Status

  /**
   The page-specific part of a batch record. The three dashboards each declare
   their own record shape; the fields they share live in `Batch`.
   */
  datatype Details =
    | FarmerDetails(
        farmLocation: string,
        notes: string,
        photo: Option<string>,
        distributorAssigned: Option<string>,
        pickupDate: Option<string>,
        transferDate: Option<string>,
        retailerAssigned: Option<string>)
    | DistributorDetails(farmer: string)
    | RetailerDetails(farmer: string, distributor: string)

  datatype Batch = Batch(
    id: string,
    name: string,
    quantity: string,
    harvestDate: string,
    status: Status,
    details: Details)

  /** `after` is `before` with at most its status replaced. */
  predicate SameExceptStatus(after: Batch, before: Batch) {
    after.(status := before.status) == before
  }

  /**
   `r` is `bs` with the status of every entry whose id is `id` set to `st`:
   same length, same order, every other field and every other entry untouched.
   */
  predicate UpdatedWhere(bs: seq<Batch>, r: seq<Batch>, id: string, st: Status) {
    && |r| == |bs|
    && (forall i :: 0 <= i < |r| ==> SameExceptStatus(r[i], bs[i]))
    && (forall i :: 0 <= i < |r| ==> r[i].status == if bs[i].id == id then st else bs[i].status)
  }

  /** Some entry of `bs` carries the id `id`. */
  predicate HasId(bs: seq<Batch>, id: string) {
    exists i :: 0 <= i < |bs| && bs[i].id == id
  }

  /** Every status in the list is well formed (no `Other` disguising a known label). */
  predicate AllWellFormed(bs: seq<Batch>) {
    forall i :: 0 <= i < |bs| ==> WellFormed(bs[i].status)
  }

  /** Number of entries carrying the id `id`. */
  function IdCount(bs: seq<Batch>, id: string): (n: nat)
    ensures n <= |bs|
    ensures n == 0 <==> !HasId(bs, id)
  {
    if bs == [] then 0
    else (if bs[0].id == id then 1 else 0) + IdCount(bs[1..], id)
  }

  /**
   The `batches.map(batch => batch.id === id ? { ...batch, status } : batch)`
   step shared by the three dashboards.
   */
  function SetStatus(bs: seq<Batch>, id: string, st: Status): (r: seq<Batch>)
    ensures UpdatedWhere(bs, r, id, st)
    ensures AllWellFormed(bs) && WellFormed(st) ==> AllWellFormed(r)
  {
    if bs == [] then []
    else
      var head := if bs[0].id == id then bs[0].(status := st) else bs[0];
      [head] + SetStatus(bs[1..], id, st)
  }

  /** `UpdatedWhere` pins the result down completely: it is a full specification of `SetStatus`. */
  lemma UpdatedWhereUnique(bs: seq<Batch>, r1: seq<Batch>, r2: seq<Batch>, id: string, st: Status)
    requires UpdatedWhere(bs, r1, id, st) && UpdatedWhere(bs, r2, id, st)
    ensures r1 == r2
  {
    forall i | 0 <= i < |r1|
      ensures r1[i] == r2[i]
    {
      assert r1[i] == bs[i].(status := r1[i].status);
      assert r2[i] == bs[i].(status := r2[i].status);
    }
  }

  /** Updating an id that no entry carries leaves the list unchanged. */
  lemma SetStatusAbsent(bs: seq<Batch>, id: string, st: Status)
    requires !HasId(bs, id)
    ensures SetStatus(bs, id, st) == bs
  {
    var r := SetStatus(bs, id, st);
    forall i | 0 <= i < |r|
      ensures r[i] == bs[i]
    {
      assert r[i] == bs[i].(status := r[i].status);
    }
  }

  /** Applying the same update twice is the same as applying it once. */
  lemma SetStatusIdempotent(bs: seq<Batch>, id: string, st: Status)
    ensures SetStatus(SetStatus(bs, id, st), id, st) == SetStatus(bs, id, st)
  {
    var once := SetStatus(bs, id, st);
    var twice := SetStatus(once, id, st);
    forall i | 0 <= i < |twice|
      ensures twice[i] == once[i]
    {
      assert once[i] == bs[i].(status := once[i].status);
      assert twice[i] == once[i].(status := twice[i].status);
    }
  }

  /**
   The entries of `bs` whose status is `st`, in their original order: the
   `batches.filter(b => b.status === ...)` buckets of the dashboards.
   */
  function Bucket(bs: seq<Batch>, st: Status): (r: seq<Batch>)
    ensures |r| <= |bs|
    ensures forall b :: b in r ==> b in bs && b.status == st
    ensures forall b :: b in bs && b.status == st ==> b in r
  {
    if bs == [] then []
    else (if bs[0].status == st then [bs[0]] else []) + Bucket(bs[1..], st)
  }

  /** Number of entries with status `st`: the figure a stat card shows. */
  function Count(bs: seq<Batch>, st: Status): nat {
    if bs == [] then 0
    else (if bs[0].status == st then 1 else 0) + Count(bs[1..], st)
  }

  /** A stat card's figure is the length of the matching bucket. */
  lemma {:induction false} CountIsBucketSize(bs: seq<Batch>, st: Status)
    ensures Count(bs, st) == |Bucket(bs, st)|
  {
    if bs != [] {
      CountIsBucketSize(bs[1..], st);
    }
  }

  /** `a` appears in `b` in the same relative order (an order-preserving sublist). */
  predicate Sublist<T(==)>(a: seq<T>, b: seq<T>)
    decreases |b|
  {
    if a == [] then true
    else if b == [] then false
    else if a[0] == b[0] then Sublist(a[1..], b[1..])
    else Sublist(a, b[1..])
  }

  /** Every bucket is an order-preserving sublist of the list it was filtered from. */
  lemma {:induction false} BucketIsSublist(bs: seq<Batch>, st: Status)
    ensures Sublist(Bucket(bs, st), bs)
  {
    if bs != [] {
      BucketIsSublist(bs[1..], st);
      if bs[0].status != st {
        var r := Bucket(bs, st);
        assert r == Bucket(bs[1..], st);
        if r != [] {
          assert r[0] in r;
          assert r[0] != bs[0];
        }
      }
    }
  }

  /** Buckets for two different statuses share no entry. */
  lemma BucketsDisjoint(bs: seq<Batch>, a: Status, b: Status)
    requires a != b
    ensures forall x :: x in Bucket(bs, a) ==> x !in Bucket(bs, b)
  {
  }

  /** Two different buckets together hold at most the whole list. */
  lemma {:induction false} BucketsBounded(bs: seq<Batch>, a: Status, b: Status)
    requires a != b
    ensures Count(bs, a) + Count(bs, b) <= |bs|
  {
    if bs != [] {
      BucketsBounded(bs[1..], a, b);
    }
  }

  /** Appending one entry adds it to its own bucket and to no other. */
  lemma {:induction false} BucketAppend(bs: seq<Batch>, x: Batch, st: Status)
    ensures Bucket(bs + [x], st) == Bucket(bs, st) + (if x.status == st then [x] else [])
  {
    if bs == [] {
      assert [x][1..] == [];
    } else {
      assert (bs + [x])[1..] == bs[1..] + [x];
      BucketAppend(bs[1..], x, st);
    }
  }

  /** The count of a list is the head's contribution plus the count of the tail. */
  lemma CountCons(x: Batch, bs: seq<Batch>, st: Status)
    ensures Count([x] + bs, st) == (if x.status == st then 1 else 0) + Count(bs, st)
  {
    assert ([x] + bs)[1..] == bs;
  }

  /** Appending one entry raises the count of its own status by one and leaves every other count alone. */
  lemma {:induction false} CountAppend(bs: seq<Batch>, x: Batch, st: Status)
    ensures Count(bs + [x], st) == Count(bs, st) + (if x.status == st then 1 else 0)
  {
    if bs == [] {
      assert [x][1..] == [];
    } else {
      assert (bs + [x])[1..] == bs[1..] + [x];
      CountAppend(bs[1..], x, st);
    }
  }

  /** One step of `SetStatus`: the updated head followed by the updated tail. */
  lemma SetStatusCons(bs: seq<Batch>, id: string, st: Status)
    requires bs != []
    ensures SetStatus(bs, id, st)
         == [if bs[0].id == id then bs[0].(status := st) else bs[0]] + SetStatus(bs[1..], id, st)
  {
  }

  /**
   The count shift of a status update: when every entry with id `id` has status
   `a` and is set to `b`, the `a` bucket loses exactly those entries, the `b`
   bucket gains them, and every other bucket keeps its size.
   */
  lemma {:induction false} SetStatusCounts(bs: seq<Batch>, id: string, a: Status, b: Status, c: Status)
    requires a != b
    requires forall i :: 0 <= i < |bs| && bs[i].id == id ==> bs[i].status == a
    ensures Count(SetStatus(bs, id, b), a) == Count(bs, a) - IdCount(bs, id)
    ensures Count(SetStatus(bs, id, b), b) == Count(bs, b) + IdCount(bs, id)
    ensures c != a && c != b ==> Count(SetStatus(bs, id, b), c) == Count(bs, c)
  {
    if bs != [] {
      var tail := bs[1..];
      assert forall i :: 0 <= i < |tail| && tail[i].id == id ==> tail[i].status == a by {
        forall i | 0 <= i < |tail| && tail[i].id == id
          ensures tail[i].status == a
        {
          assert tail[i] == bs[i + 1];
        }
      }
      SetStatusCounts(tail, id, a, b, c);
      var head := if bs[0].id == id then bs[0].(status := b) else bs[0];
      var rest := SetStatus(tail, id, b);
      SetStatusCons(bs, id, b);
      assert bs == [bs[0]] + tail;
      assert IdCount(bs, id) == (if bs[0].id == id then 1 else 0) + IdCount(tail, id);
      CountCons(head, rest, a);
      CountCons(head, rest, b);
      CountCons(head, rest, c);
      CountCons(bs[0], tail, a);
      CountCons(bs[0], tail, b);
      CountCons(bs[0], tail, c);
      if bs[0].id == id {
        assert bs[0].status == a && head.status == b;
      } else {
        assert head == bs[0];
      }
    }
  }

  /**
   The same filter written on labels, as the application writes it
   (`b.status === "..."` on strings).
   */
  function LabelFilter(bs: seq<Batch>, text: string): (r: seq<Batch>)
    ensures |r| <= |bs|
    ensures forall b :: b in r ==> b in bs && Label(b.status) == text
    ensures forall b :: b in bs && Label(b.status) == text ==> b in r
  {
    if bs == [] then []
    else (if Label(bs[0].status) == text then [bs[0]] else []) + LabelFilter(bs[1..], text)
  }

  /** On well-formed lists, filtering by `Status` is filtering by label string. */
  lemma {:induction false} BucketIsLabelFilter(bs: seq<Batch>, text: string)
    requires AllWellFormed(bs)
    ensures Bucket(bs, Parse(text)) == LabelFilter(bs, text)
  {
    if bs != [] {
      LabelParse(text);
      LabelInjective(bs[0].status, Parse(text));
      BucketIsLabelFilter(bs[1..], text);
    }
  }
}

=== FILE: decimal.dfy ===
/**
 Decimal rendering of naturals (`String(n)` for a non-negative integer) and
 `padStart` with a one-character fill, the two string steps of the farmer
 dashboard's batch-id template.
 */
module Decimal {

  predicate IsDigit(c: char) {
    '0' <= c <= '9'
  }

  predicate AllDigits(s: string) {
    forall i :: 0 <= i < |s| ==> IsDigit(s[i])
  }

  function DigitChar(d: nat): (c: char)
    requires d < 10
    ensures IsDigit(c)
  {
    ('0' as int + d) as char
  }

  function DigitValue(c: char): (d: nat)
    requires IsDigit(c)
    ensures d < 10
  {
    c as int - '0' as int
  }

  /** The number a string of decimal digits denotes (most significant digit first). */
  function Value(s: string): nat
    requires AllDigits(s)
  {
    if s == [] then 0 else Value(s[..|s| - 1]) * 10 + DigitValue(s[|s| - 1])
  }

  /**
   The shortest decimal rendering of `n`, as JavaScript's `String(n)` writes a
   non-negative integer below 10^21 (which covers every array length + 1): at
   least one digit, no leading zero unless `n` is zero, and denoting `n`.
   */
  function ToDecimal(n: nat): (s: string)
    ensures |s| >= 1 && AllDigits(s)
    ensures Value(s) == n
    ensures s[0] == '0' <==> n == 0
    ensures n == 0 ==> s == "0"
  {
    if n < 10 then [DigitChar(n)]
    else
      var prefix := ToDecimal(n / 10);
      var s := prefix + [DigitChar(n % 10)];
      assert s[..|s| - 1] == prefix;
      s
  }

  /** `k` copies of `c`. */
  function Repeat(c: char, k: nat): (s: string)
    ensures |s| == k
    ensures forall i :: 0 <= i < k ==> s[i] == c
  {
    if k == 0 then [] else [c] + Repeat(c, k - 1)
  }

  /**
   JavaScript's `s.padStart(width, fill)` for a one-character fill: `s` when it
   is already `width` long or longer, otherwise `s` behind enough copies of
   `fill` to reach `width`.
   */
  function PadStart(s: string, width: nat, fill: char): (r: string)
    ensures |r| == if |s| >= width then |s| else width
    ensures r[|r| - |s|..] == s
    ensures forall i :: 0 <= i < |r| - |s| ==> r[i] == fill
  {
    if |s| >= width then s else Repeat(fill, width - |s|) + s
  }

  /** A string of zeros denotes zero. */
  lemma {:induction false} ZerosValue(k: nat)
    ensures AllDigits(Repeat('0', k)) && Value(Repeat('0', k)) == 0
  {
    if k > 0 {
      ZerosValue(k - 1);
      var z := Repeat('0', k);
      assert z == Repeat('0', k - 1) + ['0'] by {
        assert forall i :: 0 <= i < k ==> z[i] == '0';
      }
      assert z[..k - 1] == Repeat('0', k - 1);
    }
  }

  /** Leading zeros do not change the number a digit string denotes. */
  lemma {:induction false} LeadingZerosValue(k: nat, s: string)
    requires AllDigits(s)
    ensures AllDigits(Repeat('0', k) + s)
    ensures Value(Repeat('0', k) + s) == Value(s)
    decreases |s|
  {
    var z := Repeat('0', k);
    if s == [] {
      ZerosValue(k);
      assert z + s == z;
    } else {
      var init := s[..|s| - 1];
      LeadingZerosValue(k, init);
      assert (z + s)[..|z + s| - 1] == z + init;
    }
  }

  /** Padding a decimal rendering with zeros keeps the number it denotes. */
  lemma PadStartValue(n: nat, width: nat)
    ensures AllDigits(PadStart(ToDecimal(n), width, '0'))
    ensures Value(PadStart(ToDecimal(n), width, '0')) == n
  {
    var s := ToDecimal(n);
    if |s| < width {
      var z := Repeat('0', width - |s|);
      LeadingZerosValue(width - |s|, s);
      assert PadStart(s, width, '0') == z + s;
    }
  }
}

=== FILE: distributor.dfy ===
/**
 The distributor dashboard: confirming a pickup, opening the transfer dialog,
 transferring a batch to a retailer, the badge colour of a status and the two
 buckets with their stat cards.
 */
module Distributor {
  import opened Status
  import opened BatchList

  /**
   The dashboard's state: the batch list, the retailer picked in the dialog
   (`""` when none), whether the transfer dialog is open, and the id of the
   batch the dialog was opened for (`""` when none).
   */
  datatype DistributorPage = DistributorPage(
    batches: seq<Batch>,
    selectedRetailer: string,
    transferDialogOpen: bool,
    transferBatchId: string)

  /** The retailers the dialog offers. */
  const Retailers: seq<string> := ["Fresh Market Store", "Organic Grocers", "City Supermarket", "Farm Fresh Mart"]

  /** The batches the dashboard starts with. */
  const Seed: seq<Batch> := [
    Batch("BATCH001", "Organic Alphonso Mangoes", "100 kg", "2024-09-20", AwaitingPickup, DistributorDetails("Green Valley Farm")),
    Batch("BATCH003", "Fresh Spinach", "25 kg", "2024-09-23", AwaitingPickup, DistributorDetails("Sunny Acres Farm")),
    Batch("BATCH002", "Fresh Tomatoes", "50 kg", "2024-09-22", InTransit, DistributorDetails("Green Valley Farm"))
  ]

  /** The state the page is first rendered with. */
  const Initial: DistributorPage := DistributorPage(Seed, "", false, "")

  /**
   `confirmPickup(id)`: every entry with that id becomes "In Transit", whatever
   its status was; nothing else on the page changes.
   */
  function ConfirmPickup(page: DistributorPage, id: string): (p: DistributorPage)
    ensures UpdatedWhere(page.batches, p.batches, id, InTransit)
    ensures p.selectedRetailer == page.selectedRetailer && p.transferBatchId == page.transferBatchId
    ensures p.transferDialogOpen == page.transferDialogOpen
  {
    page.(batches := SetStatus(page.batches, id, InTransit))
  }

  /** `openTransferDialog(id)`: remember the batch and open the dialog; the list is not touched. */
  function OpenTransferDialog(page: DistributorPage, id: string): (p: DistributorPage)
    ensures p.batches == page.batches && p.selectedRetailer == page.selectedRetailer
    ensures p.transferBatchId == id && p.transferDialogOpen
  {
    page.(transferBatchId := id, transferDialogOpen := true)
  }

  /**
   `transferToRetailer()`: with no retailer picked or no batch remembered,
   nothing happens; otherwise every entry with the remembered id becomes
   "Transferred to Retailer", the dialog closes and both selections reset.
   The chosen retailer is recorded on no batch.
   */
  function TransferToRetailer(page: DistributorPage): (p: DistributorPage)
    ensures page.selectedRetailer == "" || page.transferBatchId == "" ==> p == page
    ensures page.selectedRetailer != "" && page.transferBatchId != "" ==>
      && UpdatedWhere(page.batches, p.batches, page.transferBatchId, TransferredToRetailer)
      && !p.transferDialogOpen && p.selectedRetailer == "" && p.transferBatchId == ""
  {
    if page.selectedRetailer != "" && page.transferBatchId != "" then
      DistributorPage(SetStatus(page.batches, page.transferBatchId, TransferredToRetailer), "", false, "")
    else
      page
  }

  /** Every batch keeps its own details through a transfer: no retailer name is written anywhere. */
  lemma TransferRecordsNoRetailer(page: DistributorPage)
    ensures var p := TransferToRetailer(page);
      |p.batches| == |page.batches|
      && forall i :: 0 <= i < |p.batches| ==> p.batches[i].details == page.batches[i].details
  {
    var p := TransferToRetailer(page);
    forall i | 0 <= i < |p.batches|
      ensures p.batches[i].details == page.batches[i].details
    {
      assert SameExceptStatus(p.batches[i], page.batches[i]);
    }
  }

  /** Opening the dialog for a batch and then confirming with a retailer picked transfers exactly that batch. */
  lemma OpenThenTransfer(page: DistributorPage, id: string)
    requires id != "" && page.selectedRetailer != ""
    ensures TransferToRetailer(OpenTransferDialog(page, id))
         == DistributorPage(SetStatus(page.batches, id, TransferredToRetailer), "", false, "")
  {
  }

  /**
   Picking any retailer the dialog offers, with a batch remembered, passes the
   transfer guard: the remembered batch is transferred and the dialog resets.
   */
  lemma OfferedRetailerTransfers(page: DistributorPage, retailer: string)
    requires retailer in Retailers && page.transferBatchId != ""
    ensures TransferToRetailer(page.(selectedRetailer := retailer))
         == DistributorPage(SetStatus(page.batches, page.transferBatchId, TransferredToRetailer), "", false, "")
  {
  }

  /** Confirming a pickup twice is the same as confirming it once. */
  lemma ConfirmPickupIdempotent(page: DistributorPage, id: string)
    ensures ConfirmPickup(ConfirmPickup(page, id), id) == ConfirmPickup(page, id)
  {
    SetStatusIdempotent(page.batches, id, InTransit);
  }

  /** Confirming a pickup for an id no batch carries changes nothing. */
  lemma ConfirmPickupUnknownId(page: DistributorPage, id: string)
    requires !HasId(page.batches, id)
    ensures ConfirmPickup(page, id) == page
  {
    SetStatusAbsent(page.batches, id, InTransit);
  }

  /**
   No guard on the prior status: a batch already transferred to a retailer is
   put back "In Transit" by a pickup confirmation. Only the page's rendering
   (the button appears on awaiting batches) keeps this from happening.
   */
  lemma ConfirmPickupIgnoresPriorStatus(b: Batch)
    requires b.status == TransferredToRetailer
    ensures ConfirmPickup(DistributorPage([b], "", false, ""), b.id).batches == [b.(status := InTransit)]
  {
  }

  /** The "Awaiting Pickup" bucket. */
  function AwaitingPickupList(bs: seq<Batch>): (r: seq<Batch>)
    ensures Sublist(r, bs)
    ensures forall b :: b in r <==> b in bs && b.status == AwaitingPickup
    ensures |r| == Count(bs, AwaitingPickup)
  {
    BucketIsSublist(bs, AwaitingPickup);
    CountIsBucketSize(bs, AwaitingPickup);
    Bucket(bs, AwaitingPickup)
  }

  /** The "In Transit" bucket. */
  function InTransitList(bs: seq<Batch>): (r: seq<Batch>)
    ensures Sublist(r, bs)
    ensures forall b :: b in r <==> b in bs && b.status == InTransit
    ensures |r| == Count(bs, InTransit)
  {
    BucketIsSublist(bs, InTransit);
    CountIsBucketSize(bs, InTransit);
    Bucket(bs, InTransit)
  }

  /** The buckets are disjoint and a batch transferred to a retailer is in neither. */
  lemma BucketsSeparate(bs: seq<Batch>)
    ensures forall b :: b in AwaitingPickupList(bs) ==> b !in InTransitList(bs)
    ensures forall b :: b in bs && b.status == TransferredToRetailer ==>
      b !in AwaitingPickupList(bs) && b !in InTransitList(bs)
  {
  }

  /** The three stat cards: awaiting pickup, in transit, total handled. */
  datatype DistributorCards = DistributorCards(awaiting: nat, inTransit: nat, total: nat)

  function Cards(bs: seq<Batch>): (c: DistributorCards)
    ensures c.awaiting == |AwaitingPickupList(bs)| && c.inTransit == |InTransitList(bs)|
    ensures c.total == |bs| && c.awaiting + c.inTransit <= c.total
  {
    BucketsBounded(bs, AwaitingPickup, InTransit);
    CountIsBucketSize(bs, AwaitingPickup);
    CountIsBucketSize(bs, InTransit);
    DistributorCards(Count(bs, AwaitingPickup), Count(bs, InTransit), |bs|)
  }

  /**
   Confirming the pickup of a batch that alone carries its id and is awaiting
   pickup moves it from the awaiting card to the in-transit card; the total
   stays the same.
   */
  lemma ConfirmPickupMovesOne(page: DistributorPage, id: string)
    requires IdCount(page.batches, id) == 1
    requires forall i :: 0 <= i < |page.batches| && page.batches[i].id == id ==> page.batches[i].status == AwaitingPickup
    ensures Cards(ConfirmPickup(page, id).batches).awaiting == Cards(page.batches).awaiting - 1
    ensures Cards(ConfirmPickup(page, id).batches).inTransit == Cards(page.batches).inTransit + 1
    ensures Cards(ConfirmPickup(page, id).batches).total == Cards(page.batches).total
  {
    SetStatusCounts(page.batches, id, AwaitingPickup, InTransit, InTransit);
  }

  /** Transferring a batch that alone carries its id and is in transit removes it from the in-transit card. */
  lemma TransferMovesOne(page: DistributorPage)
    requires page.selectedRetailer != "" && page.transferBatchId != ""
    requires IdCount(page.batches, page.transferBatchId) == 1
    requires forall i :: 0 <= i < |page.batches| && page.batches[i].id == page.transferBatchId ==>
      page.batches[i].status == InTransit
    ensures Cards(TransferToRetailer(page).batches).inTransit == Cards(page.batches).inTransit - 1
    ensures Cards(TransferToRetailer(page).batches).awaiting == Cards(page.batches).awaiting
  {
    SetStatusCounts(page.batches, page.transferBatchId, InTransit, TransferredToRetailer, AwaitingPickup);
  }

  /** `getStatusColor` of the distributor dashboard. */
  function StatusColour(s: string): (c: Colour)
    ensures c == Yellow <==> s == AwaitingPickupLabel
    ensures c == Blue <==> s == InTransitLabel
    ensures c == Green <==> s == TransferredLabel
    ensures c == Gray <==> !(s == AwaitingPickupLabel || s == InTransitLabel || s == TransferredLabel)
  {
    KnownLabelsDistinct();
    match Parse(s)
    case AwaitingPickup => Yellow
    case InTransit => Blue
    case TransferredToRetailer => Green
    case _ => Gray
  }

  /** The starting list holds only well-formed statuses. */
  lemma SeedWellFormed()
    ensures AllWellFormed(Initial.batches)
  {
  }

  /** Confirming a pickup and transferring keep every status well formed. */
  lemma ActionsKeepWellFormed(page: DistributorPage, id: string)
    requires AllWellFormed(page.batches)
    ensures AllWellFormed(ConfirmPickup(page, id).batches)
    ensures AllWellFormed(TransferToRetailer(page).batches)
  {
  }

  /**
   On a well-formed list the cards show what the page's string filters
   (`b.status === "Awaiting Pickup"`, `b.status === "In Transit"`) select.
   */
  lemma CardsByLabel(bs: seq<Batch>)
    requires AllWellFormed(bs)
    ensures Cards(bs).awaiting == |LabelFilter(bs, AwaitingPickupLabel)|
    ensures Cards(bs).inTransit == |LabelFilter(bs, InTransitLabel)|
  {
    ParseLabel(AwaitingPickup);
    ParseLabel(InTransit);
    BucketIsLabelFilter(bs, AwaitingPickupLabel);
    BucketIsLabelFilter(bs, InTransitLabel);
  }

  /** On the starting list, two batches await pickup and one is in transit. */
  lemma SeedCards()
    ensures Cards(Initial.batches) == DistributorCards(2, 1, 3)
  {
    assert Seed[1..][1..] == [Seed[2]];
  }
}

=== FILE: farmer.dfy ===
/**
 The farmer dashboard: registering a new batch from the form, the badge
 colour of a status, the three stat cards, and the QR payload and download
 name shown for each batch.
 */
module Farmer {
  import opened Options
  import opened Status
  import opened BatchList
  import opened Decimal
  import Qr

  const IdPrefix: string := "BATCH"
  const IdWidth: nat := 3

  /** The registration form's fields; the photo is the object URL made for a non-empty upload, if any. */
  datatype BatchForm = BatchForm(
    name: string,
    quantity: string,
    harvestDate: string,
    farmLocation: string,
    notes: string,
    photo: Option<string>)

  /** The dashboard's state: its batch list and whether the registration dialog is open. */
  datatype FarmerPage = FarmerPage(batches: seq<Batch>, dialogOpen: bool)

  /**
   The id given to a batch registered when the list holds `count` entries:
   "BATCH" followed by `count + 1` in decimal, zero-padded to three digits.
   */
  function NewBatchId(count: nat): (id: string)
    ensures |id| == |IdPrefix| + (if |ToDecimal(count + 1)| >= IdWidth then |ToDecimal(count + 1)| else IdWidth)
    ensures id[..|IdPrefix|] == IdPrefix
    ensures AllDigits(id[|IdPrefix|..]) && Value(id[|IdPrefix|..]) == count + 1
    ensures |ToDecimal(count + 1)| >= IdWidth ==> id == IdPrefix + ToDecimal(count + 1)
  {
    PadStartValue(count + 1, IdWidth);
    var digits := PadStart(ToDecimal(count + 1), IdWidth, '0');
    var id := IdPrefix + digits;
    assert id[|IdPrefix|..] == digits;
    id
  }

  /** Different list lengths always produce different ids. */
  lemma NewBatchIdInjective(i: nat, j: nat)
    ensures NewBatchId(i) == NewBatchId(j) <==> i == j
  {
  }

  /** The zero padding at work: three digits below 1000, the plain number from 1000 on. */
  lemma NewBatchIdExamples()
    ensures NewBatchId(0) == "BATCH001"
    ensures NewBatchId(2) == "BATCH003"
    ensures NewBatchId(999) == "BATCH1000"
  {
    assert ToDecimal(1) == "1";
    assert ToDecimal(3) == "3";
    assert ToDecimal(1) + "0" == "10";
    assert ToDecimal(10) == "10";
    assert ToDecimal(100) == "100";
    assert ToDecimal(1000) == "1000";
    assert Repeat('0', 2) == "00";
  }

  /** The distributor, retailer, pickup and transfer fields are all unset. */
  predicate Unassigned(d: Details) {
    d.FarmerDetails? && d.distributorAssigned.None? && d.pickupDate.None?
    && d.transferDate.None? && d.retailerAssigned.None?
  }

  /** The batch built from the form when the list holds `count` entries. */
  function NewBatch(count: nat, form: BatchForm): (b: Batch)
    ensures b.id == NewBatchId(count) && b.status == AwaitingPickup
    ensures b.name == form.name && b.quantity == form.quantity && b.harvestDate == form.harvestDate
    ensures b.details.FarmerDetails? && Unassigned(b.details)
    ensures b.details.farmLocation == form.farmLocation && b.details.notes == form.notes
    ensures b.details.photo == form.photo
  {
    Batch(NewBatchId(count), form.name, form.quantity, form.harvestDate, AwaitingPickup,
          FarmerDetails(form.farmLocation, form.notes, form.photo, None, None, None, None))
  }

  /** `handleNewBatch`: append the new batch to the list and close the dialog. */
  function Register(page: FarmerPage, form: BatchForm): (p: FarmerPage)
    ensures |p.batches| == |page.batches| + 1
    ensures p.batches[..|page.batches|] == page.batches
    ensures p.batches[|page.batches|] == NewBatch(|page.batches|, form)
    ensures !p.dialogOpen
  {
    FarmerPage(page.batches + [NewBatch(|page.batches|, form)], false)
  }

  /** The two batches the dashboard starts with. */
  const Seed: seq<Batch> := [
    Batch("BATCH001", "Organic Alphonso Mangoes", "100 kg", "2024-09-20", AwaitingPickup,
          FarmerDetails("Green Valley Farm, Maharashtra",
                        "Premium quality mangoes, organically grown without pesticides",
                        None, Some("FreshProduce Distributors"), Some("2024-09-21"), None, None)),
    Batch("BATCH002", "Fresh Tomatoes", "50 kg", "2024-09-22", InTransit,
          FarmerDetails("Green Valley Farm, Maharashtra",
                        "Vine-ripened tomatoes, ideal for cooking",
                        None, Some("City Wholesale Market"), Some("2024-09-23"), None, None))
  ]

  /** The ids are BATCH001, BATCH002, ... in list order. */
  predicate SequentialIds(bs: seq<Batch>) {
    forall i :: 0 <= i < |bs| ==> bs[i].id == NewBatchId(i)
  }

  lemma SeedSequential()
    ensures SequentialIds(Seed)
  {
    NewBatchIdExamples();
    assert ToDecimal(2) == "2";
    assert Repeat('0', 2) == "00";
  }

  /** Registration keeps the ids sequential. */
  lemma RegisterKeepsSequential(page: FarmerPage, form: BatchForm)
    requires SequentialIds(page.batches)
    ensures SequentialIds(Register(page, form).batches)
  {
    var bs := Register(page, form).batches;
    forall i | 0 <= i < |bs|
      ensures bs[i].id == NewBatchId(i)
    {
      if i < |page.batches| {
        assert bs[i] == bs[..|page.batches|][i];
      }
    }
  }

  /** While the ids are sequential, the id a registration generates is carried by no existing batch. */
  lemma NewIdFresh(bs: seq<Batch>)
    requires SequentialIds(bs)
    ensures !HasId(bs, NewBatchId(|bs|))
  {
    forall i | 0 <= i < |bs|
      ensures bs[i].id != NewBatchId(|bs|)
    {
      NewBatchIdInjective(i, |bs|);
    }
  }

  /** Registration raises the "Awaiting Pickup" card by one and leaves every other status count alone. */
  lemma RegisterCounts(page: FarmerPage, form: BatchForm, st: Status)
    ensures Count(Register(page, form).batches, AwaitingPickup) == Count(page.batches, AwaitingPickup) + 1
    ensures st != AwaitingPickup ==> Count(Register(page, form).batches, st) == Count(page.batches, st)
  {
    var b := NewBatch(|page.batches|, form);
    CountAppend(page.batches, b, AwaitingPickup);
    CountAppend(page.batches, b, st);
  }

  /** `getStatusColor` of the farmer dashboard; every other label, "Transferred to Retailer" included, is gray. */
  function StatusColour(s: string): (c: Colour)
    ensures c == Yellow <==> s == AwaitingPickupLabel
    ensures c == Blue <==> s == InTransitLabel
    ensures c == Green <==> s == AvailableLabel
    ensures c == Gray <==> !(s == AwaitingPickupLabel || s == InTransitLabel || s == AvailableLabel)
  {
    KnownLabelsDistinct();
    match Parse(s)
    case AwaitingPickup => Yellow
    case InTransit => Blue
    case AvailableForSale => Green
    case _ => Gray
  }

  /** The three stat cards: total batches, awaiting pickup, in transit. */
  datatype FarmerCards = FarmerCards(total: nat, awaiting: nat, inTransit: nat)

  function Cards(bs: seq<Batch>): (c: FarmerCards)
    ensures c.total == |bs|
    ensures c.awaiting == |Bucket(bs, AwaitingPickup)| && c.inTransit == |Bucket(bs, InTransit)|
    ensures c.awaiting + c.inTransit <= c.total
  {
    BucketsBounded(bs, AwaitingPickup, InTransit);
    CountIsBucketSize(bs, AwaitingPickup);
    CountIsBucketSize(bs, InTransit);
    FarmerCards(|bs|, Count(bs, AwaitingPickup), Count(bs, InTransit))
  }

  /** The starting list holds only well-formed statuses. */
  lemma SeedWellFormed()
    ensures AllWellFormed(Seed)
  {
  }

  /** Registration keeps every status well formed: the new batch is "Awaiting Pickup". */
  lemma RegisterKeepsWellFormed(page: FarmerPage, form: BatchForm)
    requires AllWellFormed(page.batches)
    ensures AllWellFormed(Register(page, form).batches)
  {
    var bs := Register(page, form).batches;
    forall i | 0 <= i < |bs|
      ensures WellFormed(bs[i].status)
    {
      if i < |page.batches| {
        assert bs[i] == bs[..|page.batches|][i];
      }
    }
  }

  /**
   On a well-formed list the cards show what the page's string filters
   (`b.status === "Awaiting Pickup"`, `b.status === "In Transit"`) select.
   */
  lemma CardsByLabel(bs: seq<Batch>)
    requires AllWellFormed(bs)
    ensures Cards(bs).awaiting == |LabelFilter(bs, AwaitingPickupLabel)|
    ensures Cards(bs).inTransit == |LabelFilter(bs, InTransitLabel)|
  {
    ParseLabel(AwaitingPickup);
    ParseLabel(InTransit);
    BucketIsLabelFilter(bs, AwaitingPickupLabel);
    BucketIsLabelFilter(bs, InTransitLabel);
  }

  /** The QR value written out on the dashboard for batch `b`; stripping the URL prefix gives back its id. */
  function QrValue(origin: string, b: Batch): (v: string)
    ensures Qr.StripPayloadPrefix(origin, v) == Some(b.id)
  {
    Qr.PayloadRoundTrip(origin, b.id);
    origin + "/trace/" + b.id
  }

  /** The dashboard and the QR generator component encode the same payload for a batch. */
  lemma QrValueMatchesGenerator(origin: string, b: Batch)
    ensures QrValue(origin, b) == Qr.Payload(origin, b.id)
  {
  }

  /** The download name written out on the dashboard; the same template as the QR generator component's. */
  function DownloadName(b: Batch): (f: string)
    ensures f == Qr.Filename(b.name, b.id)
  {
    b.name + "-" + b.id + "-QR.png"
  }
}

=== FILE: login.dfy ===
/**
 The login page: the selected role decides where the user is sent. The email
 and password fields are never read.
 */
module Login {
  import Routes

  datatype LoginOutcome = Navigate(path: string) | Alert(message: string)

  /** The role held before the user picks one from the selector. */
  const InitialRole: string := ""

  const SelectRoleMessage: string := "Please select a user type"

  /** `handleLogin`: a known role navigates to its dashboard; anything else raises the alert. */
  function HandleLogin(email: string, password: string, role: string): (o: LoginOutcome)
    ensures o.Navigate? <==> role == "farmer" || role == "distributor" || role == "retailer"
    ensures role == "farmer" ==> o == Navigate("/farmer")
    ensures role == "distributor" ==> o == Navigate("/distributor")
    ensures role == "retailer" ==> o == Navigate("/retailer")
    ensures o.Navigate? ==> o.path in Routes.DeclaredPaths
    ensures o.Alert? ==> o.message == SelectRoleMessage
  {
    match role
    case "farmer" => Navigate("/farmer")
    case "distributor" => Navigate("/distributor")
    case "retailer" => Navigate("/retailer")
    case _ => Alert(SelectRoleMessage)
  }

  /** Submitting before a role is picked only raises the alert. */
  lemma InitialRoleAlerts(email: string, password: string)
    ensures HandleLogin(email, password, InitialRole) == Alert(SelectRoleMessage)
  {
  }

  /** The outcome depends on the role alone. */
  lemma LoginIgnoresCredentials(email1: string, password1: string, email2: string, password2: string, role: string)
    ensures HandleLogin(email1, password1, role) == HandleLogin(email2, password2, role)
  {
  }

  /** Different roles never share a destination. */
  lemma DestinationsDistinct(email: string, password: string, role1: string, role2: string)
    requires HandleLogin(email, password, role1).Navigate? && HandleLogin(email, password, role2).Navigate?
    ensures HandleLogin(email, password, role1) == HandleLogin(email, password, role2) <==> role1 == role2
  {
    assert "/farmer"[1] == 'f' && "/distributor"[1] == 'd' && "/retailer"[1] == 'r';
  }
}

=== FILE: options.dfy ===
/** An optional value: the model's stand-in for a field or parameter that may be `undefined`. */
module Options {

  datatype Option<+T> = None | Some(value: T)
}

=== FILE: qr.dfy ===
/**
 The strings around a batch's QR code: the trace path a batch is viewed at,
 the payload the code encodes (`origin + "/trace/" + id`) and the name of the
 downloaded image (`name + "-" + id + "-QR.png"`). The same two templates are
 written out in the QR generator component and on the farmer dashboard; both
 use the functions here.
 */
module Qr {
  import opened Options

  const TracePrefix: string := "/trace/"
  const FileSuffix: string := "-QR.png"

  /** The client-side path of the trace page for batch `id`. */
  function TracePath(id: string): (p: string)
    ensures |p| == |TracePrefix| + |id|
    ensures p[..|TracePrefix|] == TracePrefix && p[|TracePrefix|..] == id
  {
    TracePrefix + id
  }

  /** The text a batch's QR code encodes: the absolute URL of its trace page. */
  function Payload(origin: string, id: string): (u: string)
    ensures |u| == |origin| + |TracePrefix| + |id|
    ensures u[..|origin|] == origin && u[|origin|..] == TracePath(id)
    ensures u[..|origin| + |TracePrefix|] == origin + TracePrefix
  {
    origin + TracePath(id)
  }

  /** Recovers the batch id from a payload made for `origin`, or `None` if the text does not start with that URL prefix. */
  function StripPayloadPrefix(origin: string, u: string): (r: Option<string>)
    ensures r.Some? <==> origin + TracePrefix <= u
    ensures r.Some? ==> u == origin + TracePrefix + r.value
  {
    var prefix := origin + TracePrefix;
    if prefix <= u then Some(u[|prefix|..]) else None
  }

  /** Stripping the URL prefix from a payload gives back the batch id. */
  lemma PayloadRoundTrip(origin: string, id: string)
    ensures StripPayloadPrefix(origin, Payload(origin, id)) == Some(id)
  {
    var u := Payload(origin, id);
    assert u == (origin + TracePrefix) + id;
  }

  /** For a fixed origin, different batch ids never share a payload. */
  lemma PayloadInjective(origin: string, id1: string, id2: string)
    ensures Payload(origin, id1) == Payload(origin, id2) <==> id1 == id2
  {
    if Payload(origin, id1) == Payload(origin, id2) {
      PayloadRoundTrip(origin, id1);
      PayloadRoundTrip(origin, id2);
    }
  }

  /** The file name the "Download QR Code" button saves the image under. */
  function Filename(productName: string, id: string): (f: string)
    ensures |f| == |productName| + 1 + |id| + |FileSuffix|
    ensures f[..|productName|] == productName && f[|productName|] == '-'
    ensures f[|productName| + 1..|f| - |FileSuffix|] == id
    ensures f[|f| - |FileSuffix|..] == FileSuffix
  {
    productName + "-" + id + FileSuffix
  }

  /** For one product name, the file name determines the batch id and the id determines the file name. */
  lemma FilenameInjectiveInId(productName: string, id1: string, id2: string)
    ensures Filename(productName, id1) == Filename(productName, id2) <==> id1 == id2
  {
    var f1, f2 := Filename(productName, id1), Filename(productName, id2);
    if f1 == f2 {
      assert id1 == f1[|productName| + 1..|f1| - |FileSuffix|];
    }
  }

  /**
   Unlike the payload, the file name does not determine the batch: a dash in the
   product name or the id makes two different pairs collide.
   */
  lemma FilenameAmbiguous()
    ensures Filename("a-b", "c") == Filename("a", "b-c")
  {
  }
}

=== FILE: retailer.dfy ===
/**
 The retailer dashboard: marking a batch as received, the badge colour of a
 status, the pending and available buckets with their stat cards, and the
 trace link of an available batch.
 */
module Retailer {
  import opened Status
  import opened BatchList
  import Qr

  /** The batches the dashboard starts with. */
  const Seed: seq<Batch> := [
    Batch("BATCH004", "Organic Bell Peppers", "30 kg", "2024-09-21", TransferredToRetailer,
          RetailerDetails("Mountain View Farm", "Swift Distribution Co.")),
    Batch("BATCH005", "Fresh Carrots", "40 kg", "2024-09-23", TransferredToRetailer,
          RetailerDetails("Valley Organic Farm", "Quick Logistics")),
    Batch("BATCH006", "Organic Lettuce", "15 kg", "2024-09-24", AvailableForSale,
          RetailerDetails("Green Leaf Farm", "Swift Distribution Co."))
  ]

  /** `markAsReceived(id)`: every entry with that id becomes "Available for Sale"; nothing else changes. */
  function MarkAsReceived(bs: seq<Batch>, id: string): (r: seq<Batch>)
    ensures UpdatedWhere(bs, r, id, AvailableForSale)
  {
    SetStatus(bs, id, AvailableForSale)
  }

  /** Marking a batch received twice is the same as marking it once. */
  lemma MarkAsReceivedIdempotent(bs: seq<Batch>, id: string)
    ensures MarkAsReceived(MarkAsReceived(bs, id), id) == MarkAsReceived(bs, id)
  {
    SetStatusIdempotent(bs, id, AvailableForSale);
  }

  /** Marking an id no batch carries changes nothing. */
  lemma MarkAsReceivedUnknownId(bs: seq<Batch>, id: string)
    requires !HasId(bs, id)
    ensures MarkAsReceived(bs, id) == bs
  {
    SetStatusAbsent(bs, id, AvailableForSale);
  }

  /** The "Pending Receival" bucket: batches transferred to the retailer. */
  function PendingReceival(bs: seq<Batch>): (r: seq<Batch>)
    ensures Sublist(r, bs)
    ensures forall b :: b in r <==> b in bs && b.status == TransferredToRetailer
    ensures |r| == Count(bs, TransferredToRetailer)
  {
    BucketIsSublist(bs, TransferredToRetailer);
    CountIsBucketSize(bs, TransferredToRetailer);
    Bucket(bs, TransferredToRetailer)
  }

  /** The "Available for Sale" bucket. */
  function AvailableForSaleList(bs: seq<Batch>): (r: seq<Batch>)
    ensures Sublist(r, bs)
    ensures forall b :: b in r <==> b in bs && b.status == AvailableForSale
    ensures |r| == Count(bs, AvailableForSale)
  {
    BucketIsSublist(bs, AvailableForSale);
    CountIsBucketSize(bs, AvailableForSale);
    Bucket(bs, AvailableForSale)
  }

  /** No batch is both pending and available. */
  lemma BucketsSeparate(bs: seq<Batch>)
    ensures forall b :: b in PendingReceival(bs) ==> b !in AvailableForSaleList(bs)
  {
  }

  /** The three stat cards: pending receival, available for sale, QR codes generated. */
  datatype RetailerCards = RetailerCards(pending: nat, available: nat, qrCodes: nat)

  /**
   The cards the dashboard derives from its list. "QR Codes Generated" shows the
   available count again, and the two buckets never hold more than the list.
   */
  function Cards(bs: seq<Batch>): (c: RetailerCards)
    ensures c.pending == |PendingReceival(bs)| && c.available == |AvailableForSaleList(bs)|
    ensures c.qrCodes == c.available
    ensures c.pending + c.available <= |bs|
  {
    BucketsBounded(bs, TransferredToRetailer, AvailableForSale);
    CountIsBucketSize(bs, TransferredToRetailer);
    CountIsBucketSize(bs, AvailableForSale);
    var available := Count(bs, AvailableForSale);
    RetailerCards(Count(bs, TransferredToRetailer), available, available)
  }

  /**
   Receiving a pending batch that alone carries its id moves it from the pending
   card to the available card (and so raises the QR figure by one).
   */
  lemma MarkAsReceivedMovesOne(bs: seq<Batch>, id: string)
    requires IdCount(bs, id) == 1
    requires forall i :: 0 <= i < |bs| && bs[i].id == id ==> bs[i].status == TransferredToRetailer
    ensures Cards(MarkAsReceived(bs, id)).pending == Cards(bs).pending - 1
    ensures Cards(MarkAsReceived(bs, id)).available == Cards(bs).available + 1
    ensures Cards(MarkAsReceived(bs, id)).qrCodes == Cards(bs).qrCodes + 1
  {
    SetStatusCounts(bs, id, TransferredToRetailer, AvailableForSale, AvailableForSale);
  }

  /** `getStatusColor` of the retailer dashboard; awaiting and in-transit batches are gray here. */
  function StatusColour(s: string): (c: Colour)
    ensures c == Blue <==> s == TransferredLabel
    ensures c == Green <==> s == AvailableLabel
    ensures c != Yellow
    ensures c == Gray <==> !(s == TransferredLabel || s == AvailableLabel)
  {
    KnownLabelsDistinct();
    match Parse(s)
    case TransferredToRetailer => Blue
    case AvailableForSale => Green
    case _ => Gray
  }

  /** The "View Trace" link of an available batch is the trace path its QR code points into. */
  function ViewTraceLink(b: Batch): (p: string)
    ensures forall origin :: Qr.Payload(origin, b.id) == origin + p
  {
    "/trace/" + b.id
  }

  /** The starting list holds only well-formed statuses. */
  lemma SeedWellFormed()
    ensures AllWellFormed(Seed)
  {
  }

  /** Marking a batch received keeps every status well formed. */
  lemma MarkAsReceivedKeepsWellFormed(bs: seq<Batch>, id: string)
    requires AllWellFormed(bs)
    ensures AllWellFormed(MarkAsReceived(bs, id))
  {
  }

  /**
   On a well-formed list the cards show what the page's string filters
   (`b.status === "Transferred to Retailer"`, `b.status === "Available for Sale"`) select.
   */
  lemma CardsByLabel(bs: seq<Batch>)
    requires AllWellFormed(bs)
    ensures Cards(bs).pending == |LabelFilter(bs, TransferredLabel)|
    ensures Cards(bs).available == |LabelFilter(bs, AvailableLabel)|
  {
    ParseLabel(TransferredToRetailer);
    ParseLabel(AvailableForSale);
    BucketIsLabelFilter(bs, TransferredLabel);
    BucketIsLabelFilter(bs, AvailableLabel);
  }

  /** On the starting list, two batches are pending and one is available. */
  lemma SeedCards()
    ensures Cards(Seed) == RetailerCards(2, 1, 1)
  {
    assert Seed[1..][1..] == [Seed[2]];
  }
}

=== FILE: routes.dfy ===
/**
 The client-side routes the application declares, and the one dynamic route
 whose parameter the model needs: `/trace/:batchId`, which matches a path of
 the form "/trace/" followed by a single non-empty segment (no '/').
 */
module Routes {
  import opened Options
  import Qr

  /** The route patterns in declaration order; "*" is the not-found catch-all. */
  const DeclaredPaths: seq<string> := [
    "/", "/login", "/register", "/farmer", "/distributor", "/retailer", "/trace/:batchId", "/scan", "*"
  ]

  /** The batch id the trace route extracts from `path`, or `None` when the trace route does not match. */
  function TraceRouteParam(path: string): (r: Option<string>)
    ensures r.Some? ==> r.value != [] && '/' !in r.value && path == Qr.TracePath(r.value)
  {
    var prefix := Qr.TracePrefix;
    if prefix <= path && |path| > |prefix| && '/' !in path[|prefix|..] then
      assert path == prefix + path[|prefix|..];
      Some(path[|prefix|..])
    else
      None
  }

  /** The trace path of a one-segment id is matched by the trace route, which hands the id back. */
  lemma TraceRouteRoundTrip(id: string)
    requires id != [] && '/' !in id
    ensures TraceRouteParam(Qr.TracePath(id)) == Some(id)
  {
    assert Qr.TracePath(id)[|Qr.TracePrefix|..] == id;
  }
}

=== FILE: scan.dfy ===
/**
 The scan page: a decoded QR text or a typed batch id leads to the trace
 page. `Trim` is JavaScript's `String.prototype.trim`, which strips the
 ECMAScript WhiteSpace and LineTerminator characters from both ends.
 */
module Scan {
  import opened Options
  import Qr
  import Routes

  /** Where a handler leaves the user: a navigation, nothing at all, or an error notification. */
  datatype ScanOutcome = Navigate(path: string) | Stay | Notify(title: string, description: string)

  const ManualErrorTitle: string := "Error"
  const ManualErrorText: string := "Please enter a valid Batch ID"
  const ScanErrorTitle: string := "Error scanning QR code"

  /** The characters `trim` removes: ECMAScript WhiteSpace (TAB, VT, FF, ZWNBSP, category Zs) and LineTerminator. */
  predicate IsJsWhitespace(c: char) {
    var n := c as int;
    || n == 0x09 || n == 0x0A || n == 0x0B || n == 0x0C || n == 0x0D
    || n == 0x20 || n == 0xA0 || n == 0x1680
    || (0x2000 <= n <= 0x200A)
    || n == 0x2028 || n == 0x2029 || n == 0x202F || n == 0x205F
    || n == 0x3000 || n == 0xFEFF
  }

  predicate AllWhitespace(s: string) {
    forall i :: 0 <= i < |s| ==> IsJsWhitespace(s[i])
  }

  /** `s` without its leading whitespace. */
  function TrimStart(s: string): (r: string)
    ensures |r| <= |s| && r == s[|s| - |r|..]
    ensures AllWhitespace(s[..|s| - |r|])
    ensures r == [] || !IsJsWhitespace(r[0])
  {
    if s != [] && IsJsWhitespace(s[0]) then TrimStart(s[1..]) else s
  }

  /** `s` without its trailing whitespace. */
  function TrimEnd(s: string): (r: string)
    ensures |r| <= |s| && r == s[..|r|]
    ensures AllWhitespace(s[|r|..])
    ensures r == [] || !IsJsWhitespace(r[|r| - 1])
  {
    if s != [] && IsJsWhitespace(s[|s| - 1]) then TrimEnd(s[..|s| - 1]) else s
  }

  /** `s.trim()`: a slice of `s` that starts and ends with a non-whitespace character, or empty. */
  function Trim(s: string): (r: string)
    ensures exists lo :: 0 <= lo <= |s| && r <= s[lo..]
    ensures r == [] || (!IsJsWhitespace(r[0]) && !IsJsWhitespace(r[|r| - 1]))
  {
    var t := TrimStart(s);
    var r := TrimEnd(t);
    assert r <= s[|s| - |t|..];
    r
  }

  /** Trimming leaves nothing exactly when the text is whitespace only. */
  lemma TrimEmptyIff(s: string)
    ensures Trim(s) == [] <==> AllWhitespace(s)
  {
    var t := TrimStart(s);
    if Trim(s) == [] {
      assert AllWhitespace(t[0..]);
      assert t == [];
      assert s[..|s| - |t|] == s;
    }
  }

  /**
   `handleScan`, as written: any non-empty decoded text is put after "/trace/"
   unchanged; empty text does nothing.
   */
  function HandleScan(result: string): (o: ScanOutcome)
    ensures o.Navigate? <==> result != ""
    ensures o.Navigate? ==> o.path == Qr.TracePath(result)
    ensures !o.Navigate? ==> o == Stay
  {
    if result != "" then Navigate("/trace/" + result) else Stay
  }

  /** `handleError`: a scanner failure becomes a notification carrying the error's message. */
  function HandleError(message: string): (o: ScanOutcome)
    ensures o.Notify? && o.title == ScanErrorTitle && o.description == message
  {
    Notify(ScanErrorTitle, message)
  }

  /**
   `handleManualSubmit`: the check is made on the trimmed input, but the path is
   built from the input as typed, surrounding spaces included.
   */
  function HandleManualSubmit(batchId: string): (o: ScanOutcome)
    ensures o.Navigate? <==> !AllWhitespace(batchId)
    ensures o.Navigate? ==> o.path == Qr.TracePath(batchId)
    ensures !o.Navigate? ==> o == Notify(ManualErrorTitle, ManualErrorText)
  {
    TrimEmptyIff(batchId);
    if Trim(batchId) != "" then Navigate("/trace/" + batchId)
    else Notify(ManualErrorTitle, ManualErrorText)
  }

  /** The untrimmed input reaches the path: " B1 " leads to "/trace/ B1 ". */
  lemma ManualSubmitKeepsSpaces()
    ensures HandleManualSubmit(" B1 ") == Navigate("/trace/ B1 ")
  {
    var input := " B1 ";
    assert input[1] == 'B' && !IsJsWhitespace(input[1]);
    assert !AllWhitespace(input);
    assert Qr.TracePath(input) == "/trace/ B1 ";
  }

  /**
   Scanning a code the application generated does not reach the trace page:
   the decoded text is the whole URL, so the path carries the origin and a
   second "/trace/", and the trace route does not match it.
   */
  lemma ScanOfGeneratedCodeAsWritten(origin: string, id: string)
    ensures HandleScan(Qr.Payload(origin, id)) == Navigate(Qr.TracePath(origin + Qr.TracePath(id)))
    ensures HandleScan(Qr.Payload(origin, id)) != Navigate(Qr.TracePath(id))
    ensures Routes.TraceRouteParam(HandleScan(Qr.Payload(origin, id)).path) == None
  {
    var u := Qr.Payload(origin, id);
    assert |u| > |id|;
    var p := HandleScan(u).path;
    assert p[|Qr.TracePrefix|..] == u;
    assert u[|origin|] == '/';
  }

  /** A concrete instance: the code for BATCH001 generated on a local server. */
  lemma ScanOfGeneratedCodeExample()
    ensures HandleScan(Qr.Payload("http://localhost:8080", "BATCH001"))
         == Navigate("/trace/http://localhost:8080/trace/BATCH001")
  {
    var origin, id := "http://localhost:8080", "BATCH001";
    var u := origin + "/trace/" + id;
    var path := "/trace/" + u;
    assert path == "/trace/http://localhost:8080/trace/BATCH001";
    assert Qr.Payload(origin, id) == u;
    assert HandleScan(u) == Navigate(path);
  }

  /**
   The handler as evidently intended: a decoded text that is a payload of this
   origin is reduced to its batch id; any other text is taken as a bare id.
   */
  function HandleScanPayload(origin: string, result: string): (o: ScanOutcome)
    ensures Qr.StripPayloadPrefix(origin, result).None? ==> o == HandleScan(result)
    ensures Qr.StripPayloadPrefix(origin, result).Some? ==>
      o == HandleScan(Qr.StripPayloadPrefix(origin, result).value)
  {
    match Qr.StripPayloadPrefix(origin, result)
    case Some(id) => HandleScan(id)
    case None => HandleScan(result)
  }

  /** With the corrected handler, scanning a generated code leads to the batch's trace page. */
  lemma ScanOfGeneratedCodeFixed(origin: string, id: string)
    requires id != "" && '/' !in id
    ensures HandleScanPayload(origin, Qr.Payload(origin, id)) == Navigate(Qr.TracePath(id))
    ensures Routes.TraceRouteParam(HandleScanPayload(origin, Qr.Payload(origin, id)).path) == Some(id)
  {
    Qr.PayloadRoundTrip(origin, id);
    Routes.TraceRouteRoundTrip(id);
  }
}

=== FILE: status.dfy ===
/**
 The lifecycle label carried by every produce batch.

 In the application a status is a bare string compared with `===`; four
 labels are ever written by a handler. `Status` names those four and keeps
 every other string as `Other(label)`. `Parse` and `Label` convert between the
 two views, and a status is well formed when an `Other` never carries one of
 the four known labels (so that equality of statuses is equality of labels).
 */
module Status {

  datatype Status =
    | AwaitingPickup
    | InTransit
    | TransferredToRetailer
    | AvailableForSale
    | Other(text: string)

  const AwaitingPickupLabel: string := "Awaiting Pickup"
  const InTransitLabel: string := "In Transit"
  const TransferredLabel: string := "Transferred to Retailer"
  const AvailableLabel: string := "Available for Sale"

  /** True for the four labels the handlers write. */
  predicate IsKnownLabel(s: string) {
    s == AwaitingPickupLabel || s == InTransitLabel || s == TransferredLabel || s == AvailableLabel
  }

  /** An `Other` status never disguises one of the four known labels. */
  predicate WellFormed(st: Status) {
    st.Other? ==> !IsKnownLabel(st.text)
  }

  /** The string the application stores and displays for a status. */
  function Label(st: Status): (s: string)
    ensures st.Other? <==> !IsKnownLabel(s) || !WellFormed(st)
    ensures st.Other? ==> s == st.text
  {
    match st
    case AwaitingPickup => AwaitingPickupLabel
    case InTransit => InTransitLabel
    case TransferredToRetailer => TransferredLabel
    case AvailableForSale => AvailableLabel
    case Other(l) => l
  }

  /** Reads a status string; any string that is not one of the four labels is kept verbatim. */
  function Parse(s: string): (st: Status)
    ensures WellFormed(st)
    ensures st.Other? <==> !IsKnownLabel(s)
  {
    if s == AwaitingPickupLabel then AwaitingPickup
    else if s == InTransitLabel then InTransit
    else if s == TransferredLabel then TransferredToRetailer
    else if s == AvailableLabel then AvailableForSale
    else Other(s)
  }

  /** Parsing then printing gives back the original string, whatever it was. */
  lemma LabelParse(s: string)
    ensures Label(Parse(s)) == s
  {
  }

  /** Printing then parsing gives back every well-formed status. */
  lemma ParseLabel(st: Status)
    requires WellFormed(st)
    ensures Parse(Label(st)) == st
  {
  }

  /**
   Comparing well-formed statuses is the same as comparing their labels, so a
   filter on `Status` equality selects what the application's `===` on strings selects.
   */
  lemma LabelInjective(a: Status, b: Status)
    requires WellFormed(a) && WellFormed(b)
    ensures Label(a) == Label(b) <==> a == b
  {
    if Label(a) == Label(b) {
      ParseLabel(a);
      ParseLabel(b);
    }
  }

  /** The four known labels are pairwise distinct strings. */
  lemma KnownLabelsDistinct()
    ensures AwaitingPickupLabel != InTransitLabel && AwaitingPickupLabel != TransferredLabel
    ensures AwaitingPickupLabel != AvailableLabel && InTransitLabel != TransferredLabel
    ensures InTransitLabel != AvailableLabel && TransferredLabel != AvailableLabel
  {
    assert AwaitingPickupLabel[0] == 'A' && InTransitLabel[0] == 'I' && TransferredLabel[0] == 'T';
    assert AvailableLabel[1] == 'v' && AwaitingPickupLabel[1] == 'w';
  }

  /** The badge colours the dashboards choose between; class strings are opaque. */
  datatype Colour = Yellow | Blue | Green | Gray
}

=== FILE: trace.dfy ===
/**
 The consumer trace page: the effect that builds the mock product and its
 three-event timeline from the route's batch id, and the rule that puts a
 connector line and an arrow after every event but the last.
 */
module Trace {
  import opened Options

  datatype ProductDetails = ProductDetails(
    id: string,
    name: string,
    quantity: string,
    harvestDate: string,
    farmer: string,
    farmLocation: string,
    distributor: string,
    retailer: string,
    photo: Option<string>)

  datatype EventStatus = Completed | Current

  /** A timeline entry; the icon is left out. */
  datatype TraceEvent = TraceEvent(
    id: string,
    title: string,
    description: string,
    date: string,
    time: string,
    location: string,
    status: EventStatus)

  /** What the page shows: "Product Not Found" while no product is set, the details and timeline otherwise. */
  datatype TraceView = NotFound | Found(product: ProductDetails, events: seq<TraceEvent>)

  const FallbackId: string := "BATCH006"

  /** Before the effect runs the product is null, so the page starts on "Product Not Found". */
  const Initial: TraceView := NotFound

  /** `batchId || "BATCH006"`: a missing or empty route parameter falls back to the fixture's id. */
  function ProductId(batchId: Option<string>): (id: string)
    ensures batchId.Some? && batchId.value != "" ==> id == batchId.value
    ensures batchId.None? || batchId.value == "" ==> id == FallbackId
    ensures id != ""
  {
    match batchId
    case Some(s) => if s != "" then s else FallbackId
    case None => FallbackId
  }

  /** The mock product: the route's id on an otherwise fixed fixture. */
  function MockProduct(batchId: Option<string>): (p: ProductDetails)
    ensures p.id == ProductId(batchId)
    ensures p.photo.None?
  {
    ProductDetails(ProductId(batchId), "Organic Lettuce", "15 kg", "2024-09-24", "Green Leaf Farm",
                   "Sonoma County, CA", "Swift Distribution Co.", "Fresh Market Store", None)
  }

  /** Every batch id gets the same product apart from the id itself. */
  lemma MockProductSameFixture(a: Option<string>, b: Option<string>)
    ensures MockProduct(a).(id := FallbackId) == MockProduct(b).(id := FallbackId)
    ensures MockProduct(a) == MockProduct(b) <==> ProductId(a) == ProductId(b)
  {
  }

  /**
   The timeline for product `p`: harvested, picked up, arrived at the retailer,
   all completed. The descriptions name the product, its farm, distributor and
   retailer; the first two events happen at the farm.
   */
  function MockEvents(p: ProductDetails): (es: seq<TraceEvent>)
    ensures |es| == 3
    ensures es[0].id == "1" && es[1].id == "2" && es[2].id == "3"
    ensures forall e :: e in es ==> e.status == Completed
    ensures es[0].location == p.farmLocation && es[1].location == p.farmLocation
    ensures es[0].description == "Fresh " + p.name + " harvested at " + p.farmer
    ensures es[1].description == "Collected by " + p.distributor + " for transport"
    ensures es[2].description == "Delivered to " + p.retailer + " and available for purchase"
  {
    [ TraceEvent("1", "Harvested", "Fresh " + p.name + " harvested at " + p.farmer,
                 "September 24, 2024", "6:00 AM", p.farmLocation, Completed),
      TraceEvent("2", "Picked up by Distributor", "Collected by " + p.distributor + " for transport",
                 "September 24, 2024", "2:30 PM", p.farmLocation, Completed),
      TraceEvent("3", "Arrived at Retailer", "Delivered to " + p.retailer + " and available for purchase",
                 "September 25, 2024", "8:15 AM", "Downtown District", Completed) ]
  }

  /** The effect body: set the mock product and its events. After it, no batch id leads to "Product Not Found". */
  function RunEffect(batchId: Option<string>): (v: TraceView)
    ensures v.Found? && v != Initial
    ensures v.product == MockProduct(batchId) && v.events == MockEvents(v.product)
    ensures v.product.id == ProductId(batchId) && |v.events| == 3
    ensures v.events[1].location == v.product.farmLocation
  {
    var p := MockProduct(batchId);
    Found(p, MockEvents(p))
  }

  /** Event `index` of `count` is followed by a connector (and an arrow) when it is not the last. */
  predicate HasConnector(index: int, count: int) {
    index < count - 1
  }

  /**
   Walks the timeline as the page renders it and counts the connector lines and
   arrows drawn: one of each after every event except the last.
   */
  method CountConnectors(events: seq<TraceEvent>) returns (connectors: nat, arrows: nat)
    ensures connectors == arrows
    ensures |events| > 0 ==> connectors == |events| - 1
    ensures |events| == 0 ==> connectors == 0
  {
    connectors, arrows := 0, 0;
    var index := 0;
    while index < |events|
      invariant 0 <= index <= |events|
      invariant connectors == arrows
      invariant index < |events| ==> connectors == index
      invariant index == |events| && index > 0 ==> connectors == index - 1
      invariant index == 0 ==> connectors == 0
    {
      if HasConnector(index, |events|) {
        connectors := connectors + 1;
      }
      if HasConnector(index, |events|) {
        arrows := arrows + 1;
      }
      index := index + 1;
    }
  }

  /** Only the last event lacks a connector. */
  lemma OnlyLastUnconnected(index: int, count: int)
    requires 0 <= index < count
    ensures !HasConnector(index, count) <==> index == count - 1
  {
  }
}
